=== FILE: README.md ===
# Remote-wallet backend: a Dafny model of its lifecycle logic

This project models the sequential lifecycle logic of the remote-wallet
account backend. The backend exposes a wallet whose signing is done by a
remote signing server. It has three small state machines:

- **the wallet** (`wallet.go`). A wallet is open exactly while its derivation-path
  map exists. Opening refuses an open wallet, delegates to the driver, and
  starts a heartbeat task. Closing stops that task and tears the wallet down.
  Signing checks that the account is in the cached account list and that the
  signer the driver reports is that account. Derivation and hash signing are
  never supported.
- **the registry** (`remotewallet.go`). It tracks the single wallet. The wallet
  is created by the first refresh that is not throttled, and its arrival is
  announced. Refreshes are throttled to one per 500 ms. Subscribers keep a
  background updater running, and the updater stops once none is left.
- **the Veriteem driver** (`veriteem.go`). Its state is a cached application
  version (all zeroes while offline) and a recorded failure. Its version query
  always answers 1.0.0, and a successful sign always names the requested
  account as the signer.

Each public operation is one atomic transition over an immutable state. The
heartbeat loop and the updater loop are modelled as single rounds. The
heartbeat loop is also modelled as a method that runs over a schedule of
wake-ups. Whatever the driver or the signing server reports is a parameter
of the transition. Time is an integer number of milliseconds. Running
goroutines are recorded as data: a wallet keeps the quit channels of its live
heartbeat tasks, and the registry counts its live updater tasks.

Files and modules:

- `types.dfy` (`Types`): addresses (20 bytes), accounts, URLs, errors, events.
- `driver.dfy` (`Driver`): the Veriteem driver.
- `wallet.dfy` (`Wallets`): the wallet. It is generic over the driver, so each
  operation takes the driver's outcome as input.
- `lifecycle.dfy` (`Lifecycle`): the wallet as a transition system, with the
  invariant that ties `paths`, `healthQuit` and the live heartbeat tasks
  together (see Findings).
- `device.dfy` (`Device`): a wallet bound to the Veriteem driver, as the registry
  builds it.
- `registry.dfy` (`Registry`): the registry.

## Model

| member | source | states |
|---|---|---|
| Driver.New | src/veriteem/remotewallet/veriteem.go:95-99 | a new driver is offline and has no recorded failure |
| Driver.Offline | src/veriteem/remotewallet/veriteem.go:113-115 | the driver is offline exactly when all three version bytes are zero |
| Driver.LedgerVersion | src/veriteem/remotewallet/veriteem.go:247-255 | the version query performs no exchange and always answers version 1.0.0, which is not the offline version |
| Driver.OpenWith | src/veriteem/remotewallet/veriteem.go:120-130 | a failed version query leaves the driver offline and reports that error; a successful one caches the version; the recorded failure is never touched |
| Driver.Open | src/veriteem/remotewallet/veriteem.go:120-130 | with the real version query, Open always succeeds, sets version 1.0.0, and the driver is no longer offline |
| Driver.Close | src/veriteem/remotewallet/veriteem.go:134-137 | Close always succeeds and leaves the driver offline, with its failure unchanged |
| Driver.HeartbeatWith | src/veriteem/remotewallet/veriteem.go:141-147 | a heartbeat reports an error exactly when the query fails with something other than an invalid version reply; the error reported and recorded is the query's own; otherwise nothing changes |
| Driver.Heartbeat | src/veriteem/remotewallet/veriteem.go:141-147 | with the real version query, a heartbeat never fails and leaves the driver unchanged |
| Driver.Derive | src/veriteem/remotewallet/veriteem.go:151-153 | derivation always yields the zero address and "not supported" |
| Driver.SignTx | src/veriteem/remotewallet/veriteem.go:161-233 | a failed signing exchange yields its error, the zero address and no transaction; a successful one yields the requested account's address as the signer, plus the signed transaction |
| Driver.Status | src/veriteem/remotewallet/veriteem.go:103-108 | the status error is always the recorded failure |
| Driver.StatusTextShowsFailure | src/veriteem/remotewallet/veriteem.go:103-108 | the status text starts with "Failed: " exactly when a failure is recorded |
| Driver.OpenedStatus | src/veriteem/remotewallet/veriteem.go:107 | a driver without a failure reports "Ethereum app v1.0.0 online" once opened |
| Driver.OfflineStatus | src/veriteem/remotewallet/veriteem.go:103-115 | a driver that is offline and has no recorded failure, such as a new or closed one, reports "Ethereum app v0.0.0 online": Status never consults the offline check |
| Driver.OpenCloseCycle | src/veriteem/remotewallet/veriteem.go:113-137 | Open brings any driver online; Close takes it offline again; closing first does not change what Open produces |
| Wallets.New | src/veriteem/remotewallet/remotewallet.go:130 | a wallet starts closed, with no quit channel, no heartbeat task and no cached accounts |
| Wallets.Open | src/veriteem/remotewallet/wallet.go:127-151 | an open wallet is refused with "already open" and left untouched; a driver failure is returned and the wallet stays closed; on success the path map is empty but present, a fresh quit channel and its heartbeat task exist, and an Opened event is published |
| Wallets.Teardown | src/veriteem/remotewallet/wallet.go:230-238 | teardown closes the wallet and empties the account cache, and touches nothing else |
| Wallets.Close | src/veriteem/remotewallet/wallet.go:197-224 | afterwards the wallet is closed, with no accounts and no quit channel; the task named by the quit channel is stopped and no other; the result is that task's acknowledgement, or none when there was no task; URL and channel supply are kept |
| Wallets.Accounts | src/veriteem/remotewallet/wallet.go:243-259 | the driver's list replaces the cache even when the driver failed; the caller gets that list, or an empty list on failure |
| Wallets.Scan | src/veriteem/remotewallet/wallet.go:274-281 | the front-to-back scan finds an address exactly when some cached account has that address |
| Wallets.Contains | src/veriteem/remotewallet/wallet.go:265-282 | Contains holds exactly when some cached account has the same address |
| Wallets.SignTx | src/veriteem/remotewallet/wallet.go:309-329 | an uncached account gives "unknown account"; a driver error is passed through; a signer other than the account gives a signer mismatch and no transaction; otherwise the driver's transaction is returned |
| Wallets.SignTxWithPassphrase | src/veriteem/remotewallet/wallet.go:342-345 | the passphrase is ignored: the result equals SignTx's |
| Wallets.Derive | src/veriteem/remotewallet/wallet.go:287-290 | always "not supported", whatever the state |
| Wallets.SignHash | src/veriteem/remotewallet/wallet.go:299-302 | always "not supported", whatever the state |
| Wallets.SignHashWithPassphrase | src/veriteem/remotewallet/wallet.go:334-337 | always "not supported", whatever the state |
| Wallets.HeartbeatStep | src/veriteem/remotewallet/wallet.go:174-186 | a failed heartbeat closes the wallet and empties its accounts, keeping URL and channel supply; a successful one changes nothing; either way the task keeps looping and the quit channel stays |
| Wallets.BeatsTearDownOnFailure | src/veriteem/remotewallet/wallet.go:169-187 | a schedule of heartbeats leaves the wallet torn down exactly when one of them fails before the first quit request, and untouched otherwise |
| Wallets.Heartbeat | src/veriteem/remotewallet/wallet.go:155-194 | the task performs exactly the heartbeats before the first quit request, so the wallet ends torn down iff one of those failed and unchanged otherwise; it acknowledges iff a quit request arrives; the acknowledgement never carries an error |
| Wallets.FailedOpenIsRetryable | src/veriteem/remotewallet/wallet.go:133-143 | after a failed open the wallet is still closed, and a retry succeeds once the driver does |
| Wallets.UnknownAccountNeverReachesDriver | src/veriteem/remotewallet/wallet.go:317-321 | for an uncached account the result does not depend on the driver's sign call and is "unknown account" |
| Wallets.ContainsByAddress | src/veriteem/remotewallet/wallet.go:251-279 | membership ignores the account URL; an account just read from the driver is contained |
| Wallets.OpenThenClose | src/veriteem/remotewallet/wallet.go:127-238 | opening a closed wallet and closing it gives no error and returns it to closed; no heartbeat task is left beyond those running before |
| Lifecycle.FixedHeartbeatStep | src/veriteem/remotewallet/wallet.go:174-186 | corrected step: a failed heartbeat closes the wallet, ends its task, and drops the quit channel if it was this task's (any other is kept); URL and channel supply are kept |
| Lifecycle.ApplyKeepsValid | src/veriteem/remotewallet/wallet.go:127-238 | with the corrected step, every operation keeps paths and quit channel present together, with the one live task being the one the channel names |
| Lifecycle.RunKeepsValid | src/veriteem/remotewallet/wallet.go:127-238 | with the corrected step, the invariant survives any sequence of operations |
| Lifecycle.ValidMeansNoOrphans | src/veriteem/remotewallet/wallet.go:200-210 | under the invariant no task is orphaned, and Close stops every task |
| Lifecycle.NoOrphansEver | src/veriteem/remotewallet/wallet.go:127-238 | from a new wallet, under any operations of the corrected system, Close always leaves no heartbeat task running |
| Lifecycle.AsWrittenFailedHeartbeatBreaksInvariant | src/veriteem/remotewallet/wallet.go:180-186 | as written, after a failed heartbeat the wallet is closed but still names a quit channel and a running task |
| Lifecycle.AsWrittenReopenOrphansHeartbeat | src/veriteem/remotewallet/wallet.go:133-145 | as written, reopening after a failed heartbeat leaves two tasks running; Close stops one of them; the one left can still close the new session |
| Lifecycle.FixedReopenKeepsOneHeartbeat | src/veriteem/remotewallet/wallet.go:180-186 | with the corrected step, the same schedule leaves exactly one task, and Close stops it |
| Device.New | src/veriteem/remotewallet/remotewallet.go:130 | a device is built from a fresh wallet (closed, no accounts, no quit channel, no heartbeat task) and an offline driver bound to the given server with no recorded failure |
| Device.Open | src/veriteem/remotewallet/wallet.go:127-151 | an open device is refused unchanged; a closed one always opens with this driver: an empty path map, a fresh quit channel and its heartbeat task, accounts kept, the driver at version 1.0.0 with server and failure kept, and an Opened event |
| Device.Close | src/veriteem/remotewallet/wallet.go:197-224 | with this driver Close never fails; it leaves the wallet closed with no accounts and no quit channel, stops the task the quit channel named and no other, and zeroes only the driver's version, so a recorded failure is still reported |
| Device.Status | src/veriteem/remotewallet/wallet.go:117-124 | a wallet's status is its driver's: the error is the recorded failure, and the text shows whether there is one |
| Device.Accounts | src/veriteem/remotewallet/wallet.go:243-259 | the server's list becomes the cache and nothing else changes; it is returned unless the read failed |
| Device.SignTx | src/veriteem/remotewallet/wallet.go:309-329 | with this driver the result is "unknown account", the exchange's error, or the exchange's transaction; it is never a signer mismatch of the wallet's own making |
| Device.Heartbeat | src/veriteem/remotewallet/wallet.go:174-186 | with this driver a heartbeat round leaves the device unchanged, so it never tears the wallet down |
| Registry.Refresh | src/veriteem/remotewallet/remotewallet.go:113-141 | within 500 ms of the last refresh nothing changes and nothing is published; otherwise an empty registry gains exactly one wallet (registry scheme, signing-server address) plus one Arrived event; a non-empty one only records the time |
| Registry.New | src/veriteem/remotewallet/remotewallet.go:79-90 | a new registry satisfies the invariant and keeps the given scheme and server; it already tracks its one wallet and has published its arrival; no updater, no subscriber, and the subscription counter at zero |
| Registry.NewVeriteemWallet | src/veriteem/remotewallet/remotewallet.go:63-76 | the production registry talks to the signing server http://13.59.10.65:80 under the remotewallet scheme, and so does its wallet's driver; the wallet URL is remotewallet with path http://13.59.10.65:80 |
| Registry.Wallets | src/veriteem/remotewallet/remotewallet.go:94-105 | Wallets refreshes and returns the tracked list as it stands after that refresh; once a wallet is tracked, it returns that list and publishes nothing |
| Registry.Subscribe | src/veriteem/remotewallet/remotewallet.go:145-161 | afterwards the updater flag is set; an updater is started iff none was running; the new subscription is added, and when every existing id is below the counter its id is one not in use; the counter moves on by one; scheme, server, wallets and refresh time are kept |
| Registry.Throttled | src/veriteem/remotewallet/remotewallet.go:116-117 | a registry that never refreshed is not throttled; otherwise it is exactly while less than 500 ms have passed since the last refresh |
| Registry.WalletUrl | src/veriteem/remotewallet/remotewallet.go:128 | the wallet URL carries the registry's scheme and the signing-server address as its path |
| Registry.UpdaterStep | src/veriteem/remotewallet/remotewallet.go:165-184 | a round refreshes; with no subscriber it clears the flag and the updater ends; otherwise it carries on with the flag unchanged; subscriptions are untouched |
| Registry.ThrottleWindow | src/veriteem/remotewallet/remotewallet.go:116-119 | two listings within 500 ms of a scan give the same list; the second changes and publishes nothing |
| Registry.FirstListing | src/veriteem/remotewallet/remotewallet.go:126-134 | the first listing of a registry that has never refreshed gives exactly one wallet with the configured scheme and the signing-server address, and one Arrived event for it |
| Registry.SubscribeThenCancelStopsUpdater | src/veriteem/remotewallet/remotewallet.go:145-184 | subscribing to an idle registry starts an updater; after that only subscription is cancelled, the next round stops it |
| Registry.ApplyKeepsValid | src/veriteem/remotewallet/remotewallet.go:113-184 | every registry operation keeps the invariant: one wallet once refreshed and none before, and one updater exactly while the flag is set; once a wallet is tracked no operation changes the list or publishes |
| Registry.RunKeepsValid | src/veriteem/remotewallet/remotewallet.go:113-184 | the invariant and the unchanged wallet list hold after any sequence of operations |
| Registry.Lifetime | src/veriteem/remotewallet/remotewallet.go:79-141 | over a registry's whole life it tracks exactly the wallet built at construction, runs at most one updater, and publishes exactly one Arrived event |

## Left out

- Locks and goroutine interleaving are not modelled. This covers the wallet's
  state lock and `commsLock` token, the registry's lock, and the quit
  request/acknowledge handshake. Every operation is atomic. Three things in
  the source that only matter under concurrency are therefore not examined:
  `SignTx` takes the read lock again inside `Contains`; `Accounts` writes the
  cache while holding only the read lock; `refreshWallets` runs without the
  registry lock.
- Real time is not modelled. The 60-second heartbeat timer and the 60-second
  updater sleep are the wake-ups given to `Wallets.Heartbeat` and to
  `Registry.UpdaterStep`. The clock is an integer number of milliseconds.
- Event delivery through `event.Feed` is not modelled. Operations return the
  events they publish. `event.SubscriptionScope` becomes a set of live
  subscriptions. `Registry.Unsubscribe` stands in for cancelling a
  subscription, which lives in the `event` package and not in this code.
- The signing-server client (`SigningServer.go`) is not part of this model.
  Neither are the JSON and transaction encoding inside the driver's `SignTx`.
  The driver's `ReadAccounts` passes the server's reply through. Each of these
  appears only as its outcome: a list with an error, or a signed transaction
  or an error.
- Logging, `fmt.Println`, `SelfDerive` (which does nothing) and `URL()` (which
  returns the immutable URL) are not modelled.
- Wallets.Close: takes the heartbeat task's acknowledgement as input. That
  acknowledgement is always empty, as `Wallets.Heartbeat` proves, and
  `Device.Close` supplies it.
- Types.Message: the signer-mismatch text leaves out the two addresses. Their
  checksummed hex form is not modelled.
- Wallets.Derive: returns an error in place of Go's pair of an empty account
  and an error. The empty account carries no information.
- Go's nil and empty account slices are not distinguished. They behave the
  same in every operation modelled.
- Device values in the registry are snapshots. The registry's list holds each
  wallet as it was built. Later device operations act on a separate `Device`
  value, because only which wallets exist matters to the registry.
- Registry.Unsubscribe: has no row of its own. It only removes an id from the
  set of live subscriptions, standing in for `event.Subscription.Unsubscribe`,
  which is outside this code.
- Wallets.Heartbeat: assumes an initialised `commsLock` token. In the source
  the wallet's only construction (`remotewallet.go:130`) leaves `commsLock`
  nil and nothing creates it; receiving from a nil channel blocks forever, so
  at its first timer tick the task blocks at `wallet.go:175` while holding the
  state read lock, never reaches the driver's heartbeat and never selects on
  `healthQuit` again. A `Close` after that tick then blocks at `wallet.go:208`,
  and any later write lock (`wallet.go:129`, `:212`) waits behind the held read
  lock. The model treats `commsLock` as a working one-slot token, so the
  statements that the task acknowledges every quit request, that
  `Device.Close` never fails and the Findings scenario all describe the code
  with that token initialised.
- The driver's `offline()` check (`veriteem.go:113-115`) is modelled as
  `Driver.Offline` but nothing in the source calls it; in particular `Status`
  does not, so an offline driver without a failure reports itself online at
  version 0.0.0, as `Driver.OfflineStatus` states.
- Heartbeat tasks are told apart by the quit channel each one started on. In
  Go every task reads the wallet's shared `healthQuit` field, so when two run,
  either may take Close's quit request. The model claims only the count: one
  more task runs than Close stops.
- The driver factory `makeDriver` (`remotewallet.go:47`, `:130`) is fixed to
  the Veriteem driver in `Device.New`; no other vendor driver is modelled.
- The wallet URL's path is the fixed signing-server constant, not the address
  of the server handed to the registry constructor. This follows
  `remotewallet.go:128`. The only caller passes that same constant.

## Findings

| source | as written | input that shows it | evidently intended | confidence | as-written member | corrected member |
|---|---|---|---|---|---|---|
| src/veriteem/remotewallet/wallet.go:180-186 | A failed heartbeat tears the wallet down through `close()`. That clears `paths` but leaves `healthQuit` set, and the task keeps looping. A later `Open` creates a new `healthQuit` and a second task. Two tasks now run, both selecting on the wallet's `healthQuit`, and `Close` sends one quit request, so one more task runs than `Close` stops. The task left over keeps heartbeating and can close the next session. | Open (succeeds), a heartbeat of task 0 that fails, then Open again (succeeds). Tasks {0, 1} are live and `healthQuit` is 1. After `Close`, one of the two tasks is still running. | One of two candidate intents; the source supports both. (a), modelled: a failed heartbeat also drops its quit channel and ends its task, so `paths` and `healthQuit` change together and every open session has exactly one heartbeat task, which `Close` stops. (b), not modelled: the code after the loop (`wallet.go:188-193`) and `Close`'s error return (`wallet.go:205-210`, `:220-222`) suggest the task should leave the loop on error, wait on `healthQuit` until `Close`, and have `Close` report the heartbeat error. Under (b) a reopen before `Close` still installs a second quit channel and task, so the as-written defect stands under either reading. | medium, not executed; the Veriteem driver's heartbeat never fails, so this needs a driver whose heartbeat can fail, and an initialised `commsLock` (the source leaves it nil, which blocks every heartbeat before the driver is asked) | Lifecycle.AsWrittenReopenOrphansHeartbeat | Lifecycle.FixedHeartbeatStep |

=== FILE: device.dfy ===
/**
 A wallet bound to the Veriteem driver, as the registry builds it. Each
 operation runs the wallet's transition with the outcome the driver actually
 produces and applies the driver's own state change. The only inputs left
 open are those of the signing server: the account list it returns and the
 outcome of a signing exchange.
 */
module Device {
  import opened Types
  import Driver
  import opened Wallets

  datatype Device = Device(wallet: Wallet, driver: Driver.Driver)

  function New(url: Url, server: Driver.SigningServer): (dv: Device)
    ensures !IsOpen(dv.wallet) && Driver.Offline(dv.driver) && dv.wallet.url == url
    ensures dv.wallet == Wallets.New(url)
    ensures dv.driver.failure == None && dv.driver.server == server
  {
    Device(Wallets.New(url), Driver.New(server))
  }

  /** Open: the driver is consulted only for a closed wallet, and with this
      driver opening a closed wallet always succeeds and brings the driver
      online. */
  function Open(dv: Device, passphrase: string): (r: (Device, Option<Error>, seq<WalletEvent>))
    ensures IsOpen(dv.wallet) ==> r == (dv, Some(WalletAlreadyOpen), [])
    ensures !IsOpen(dv.wallet) ==>
      && r.1 == None && IsOpen(r.0.wallet) && !Driver.Offline(r.0.driver)
      && r.2 == [WalletEvent(dv.wallet.url, WalletOpened)]
      && r.0.wallet.paths == Some(map[])
      && r.0.wallet.healthQuit == Some(dv.wallet.nextChannel)
      && r.0.wallet.heartbeats == dv.wallet.heartbeats + {dv.wallet.nextChannel}
      && r.0.wallet.nextChannel == dv.wallet.nextChannel + 1
      && r.0.wallet.accounts == dv.wallet.accounts && r.0.wallet.url == dv.wallet.url
      && r.0.driver == dv.driver.(version := Driver.ServerVersion)
  {
    if IsOpen(dv.wallet) then
      var t := Wallets.Open(dv.wallet, None);
      (Device(t.next, dv.driver), t.out, t.events)
    else
      var (d', err) := Driver.Open(dv.driver, passphrase);
      var t := Wallets.Open(dv.wallet, err);
      (Device(t.next, d'), t.out, t.events)
  }

  /** Close: the heartbeat task acknowledges with no error and the teardown
      cannot fail, so Close always succeeds, closes the wallet and takes the
      driver offline. */
  function Close(dv: Device): (r: (Device, Option<Error>))
    ensures r.1 == None
    ensures !IsOpen(r.0.wallet) && r.0.wallet.healthQuit.None? && Driver.Offline(r.0.driver)
    ensures r.0.wallet.accounts == [] && r.0.wallet.url == dv.wallet.url
    ensures r.0.wallet.nextChannel == dv.wallet.nextChannel
    ensures r.0.driver == dv.driver.(version := Driver.OfflineVersion)
    ensures dv.wallet.healthQuit.Some? ==> dv.wallet.healthQuit.value !in r.0.wallet.heartbeats
    ensures r.0.wallet.heartbeats ==
      (if dv.wallet.healthQuit.Some? then dv.wallet.heartbeats - {dv.wallet.healthQuit.value}
       else dv.wallet.heartbeats)
  {
    var t := Wallets.Close(dv.wallet, None);
    (Device(t.next, Driver.Close(dv.driver).0), t.out)
  }

  /** Status is the driver's status; the wallet's state is not involved. */
  function Status(dv: Device): (r: (string, Option<Error>))
    ensures r.1 == dv.driver.failure
    ensures |r.0| >= 8 && (r.0[..8] == "Failed: " <==> dv.driver.failure.Some?)
  {
    Driver.StatusTextShowsFailure(dv.driver);
    Driver.Status(dv.driver)
  }

  /** Accounts: the driver hands over what the signing server returned. */
  function Accounts(dv: Device, read: seq<Account>, readErr: Option<Error>): (r: (Device, seq<Account>))
    ensures r.0 == dv.(wallet := dv.wallet.(accounts := read))
    ensures r.1 == (if readErr.Some? then [] else read)
  {
    var t := Wallets.Accounts(dv.wallet, read, readErr);
    (Device(t.next, dv.driver), t.out)
  }

  /** SignTx with this driver: since the driver always names the requested
      account as signer, the signer-mismatch refusal never fires. The result
      is an unknown-account refusal, the exchange's failure, or the
      transaction the exchange produced. */
  function SignTx(dv: Device, account: Account, tx: Transaction, chainId: int,
                  exchange: Result<Transaction>): (r: Result<Option<Transaction>>)
    ensures !Contains(dv.wallet, account) ==> r == Err(UnknownAccount)
    ensures Contains(dv.wallet, account) && exchange.Err? ==> r == Err(exchange.error)
    ensures Contains(dv.wallet, account) && exchange.Ok? ==> r == Ok(Some(exchange.value))
    ensures r.Err? && r.error.SignerMismatch? ==> exchange == Err(r.error)
  {
    Wallets.SignTx(dv.wallet, account, tx, chainId,
                   (a, t, c) => Driver.SignTx(dv.driver, a, t, c, exchange))
  }

  /** One heartbeat of the running task: this driver's heartbeat never fails,
      so the device is left exactly as it was. */
  function Heartbeat(dv: Device, task: Channel): (r: Device)
    requires task in dv.wallet.heartbeats
    ensures r == dv
  {
    var (d', err) := Driver.Heartbeat(dv.driver);
    var t := HeartbeatStep(dv.wallet, task, err);
    Device(t.next, if err.Some? then Driver.Close(d').0 else d')
  }
}

=== FILE: driver.dfy ===
/**
 The Veriteem signing-service driver: the vendor-specific backend a wallet
 delegates to. Its only state is the cached application version (zero while
 offline) and the last fatal failure. Everything that talks to the signing
 server (the version query, the JSON signing exchange) is represented by its
 outcome, which callers pass in.
 */
module Driver {
  import opened Types

  /** Version of the signing application, three bytes. */
  datatype Version = Version(major: byte, minor: byte, patch: byte)

  const OfflineVersion: Version := Version(0, 0, 0)

  /** The version the signing server is assumed to run. */
  const ServerVersion: Version := Version(1, 0, 0)

  /** Connection settings of the signing server the driver talks to. */
  datatype SigningServer = SigningServer(serverUrl: string, scheme: string)

  datatype Driver = Driver(server: SigningServer, version: Version, failure: Option<Error>)

  /** What the driver's sign call hands back: the signer it claims, the signed
      transaction, and an error. */
  datatype SignReply = SignReply(signer: Address, tx: Option<Transaction>, err: Option<Error>)

  /** A freshly constructed driver: offline and without failure. */
  function New(server: SigningServer): (d: Driver)
    ensures Offline(d) && d.failure == None && d.server == server
  {
    Driver(server, OfflineVersion, None)
  }

  /** The driver counts as offline exactly while its version is all zeroes. */
  function Offline(d: Driver): (r: bool)
    ensures r <==> d.version.major == 0 && d.version.minor == 0 && d.version.patch == 0
  {
    d.version == OfflineVersion
  }

  /** The version query against the signing server. It performs no exchange
      and always answers version 1.0.0. */
  function LedgerVersion(d: Driver): (r: Result<Version>)
    ensures r == Ok(Version(1, 0, 0))
    ensures r.value != OfflineVersion
  {
    Ok(ServerVersion)
  }

  /** Open, given the outcome of the version query: a failed query leaves the
      driver offline and reports the failure; a successful one caches the
      version. The recorded failure is never touched. */
  function OpenWith(d: Driver, reply: Result<Version>): (r: (Driver, Option<Error>))
    ensures r.0.server == d.server && r.0.failure == d.failure
    ensures reply.Err? ==> r.1 == Some(reply.error) && Offline(r.0)
    ensures reply.Ok? ==> r.1 == None && r.0.version == reply.value
  {
    match reply
    case Err(e) => (d.(version := OfflineVersion), Some(e))
    case Ok(v) => (d.(version := v), None)
  }

  /** Open as the driver performs it; the passphrase is ignored. */
  function Open(d: Driver, passphrase: string): (r: (Driver, Option<Error>))
    ensures r.1 == None
    ensures r.0.version == ServerVersion && !Offline(r.0)
    ensures r.0.server == d.server && r.0.failure == d.failure
  {
    OpenWith(d, LedgerVersion(d))
  }

  /** Close drops the cached version, so the driver is offline again. */
  function Close(d: Driver): (r: (Driver, Option<Error>))
    ensures r.1 == None && Offline(r.0)
    ensures r.0.server == d.server && r.0.failure == d.failure
  {
    (d.(version := OfflineVersion), None)
  }

  /** Heartbeat, given the outcome of the version query: only a failure other
      than an invalid version reply is fatal; it is recorded and reported. */
  function HeartbeatWith(d: Driver, reply: Result<Version>): (r: (Driver, Option<Error>))
    ensures r.1.Some? <==> reply.Err? && reply.error != InvalidVersionReply
    ensures r.1.Some? ==> r.1 == Some(reply.error) && r.0 == d.(failure := r.1)
    ensures r.1.None? ==> r.0 == d
  {
    if reply.Err? && reply.error != InvalidVersionReply then
      (d.(failure := Some(reply.error)), Some(reply.error))
    else
      (d, None)
  }

  /** Heartbeat as the driver performs it: never fails, changes nothing. */
  function Heartbeat(d: Driver): (r: (Driver, Option<Error>))
    ensures r == (d, None)
  {
    HeartbeatWith(d, LedgerVersion(d))
  }

  /** Key derivation is not offered by the signing server. */
  function Derive(d: Driver, path: DerivationPath): (r: (Address, Option<Error>))
    ensures r.0 == ZeroAddress && r.1 == Some(NotSupported)
  {
    (ZeroAddress, Some(NotSupported))
  }

  /** Signing, given the outcome of the exchange with the signing server
      (encoding, request, decoding): a failed exchange yields the zero address
      and no transaction; a successful one names the requested account as
      the signer. */
  function SignTx(d: Driver, account: Account, tx: Transaction, chainId: int,
                  exchange: Result<Transaction>): (r: SignReply)
    ensures r.err.None? <==> exchange.Ok?
    ensures exchange.Ok? ==> r.signer == account.address && r.tx == Some(exchange.value)
    ensures exchange.Err? ==> r.err == Some(exchange.error) && r.tx == None && r.signer == ZeroAddress
  {
    match exchange
    case Ok(signed) => SignReply(account.address, Some(signed), None)
    case Err(e) => SignReply(ZeroAddress, None, Some(e))
  }

  /** The decimal digits of n, as printed by %d. */
  function Decimal(n: nat): (s: string)
    ensures |s| > 0
  {
    if n < 10 then ["0123456789"[n]] else Decimal(n / 10) + ["0123456789"[n % 10]]
  }

  function OnlineText(v: Version): string
  {
    "Ethereum app v" + Decimal(v.major as nat) + "." + Decimal(v.minor as nat) + "."
      + Decimal(v.patch as nat) + " online"
  }

  /** Status: the failure text and the failure itself when one was recorded,
      otherwise the online text built from the cached version. */
  function Status(d: Driver): (r: (string, Option<Error>))
    ensures r.1 == d.failure
  {
    if d.failure.Some? then ("Failed: " + Message(d.failure.value), d.failure)
    else (OnlineText(d.version), d.failure)
  }

  /** The status text alone tells whether a failure was recorded. */
  lemma StatusTextShowsFailure(d: Driver)
    ensures |Status(d).0| >= 8
    ensures Status(d).0[..8] == "Failed: " <==> d.failure.Some?
  {
    if d.failure.None? {
      assert Status(d).0[0] == 'E';
    }
  }

  /** A driver that was just opened reports itself online at version 1.0.0. */
  lemma OpenedStatus(d: Driver, passphrase: string)
    requires d.failure == None
    ensures Status(Open(d, passphrase).0) == ("Ethereum app v1.0.0 online", None)
  {
    assert Decimal(1) == "1" && Decimal(0) == "0";
    assert OnlineText(ServerVersion) == "Ethereum app v" + "1" + "." + "0" + "." + "0" + " online";
    assert "Ethereum app v" + "1" + "." + "0" + "." + "0" + " online" == "Ethereum app v1.0.0 online";
    var d' := Open(d, passphrase).0;
    assert d'.failure == None;
    assert Status(d') == (OnlineText(ServerVersion), None);
  }

  /** Offline is never consulted by Status: a driver that is offline and has
      no recorded failure, such as a new or closed one, still reports itself
      online, at version 0.0.0. */
  lemma OfflineStatus(d: Driver)
    requires d.failure == None && Offline(d)
    ensures Status(d) == ("Ethereum app v0.0.0 online", None)
  {
    assert Decimal(0) == "0";
    assert OnlineText(OfflineVersion) == "Ethereum app v" + "0" + "." + "0" + "." + "0" + " online";
    assert "Ethereum app v" + "0" + "." + "0" + "." + "0" + " online" == "Ethereum app v0.0.0 online";
  }

  /** Open and Close are the two halves of the online/offline cycle, whatever
      state the driver was in. */
  lemma OpenCloseCycle(d: Driver, passphrase: string)
    ensures !Offline(Open(d, passphrase).0)
    ensures Offline(Close(Open(d, passphrase).0).0)
    ensures Open(Close(d).0, passphrase).0 == Open(d, passphrase).0
  {
  }
}

=== FILE: lifecycle.dfy ===
/**
 The wallet as a transition system over its state-changing operations, and
 the invariant its design relies on: `paths` and `healthQuit` are present or
 absent together, and the only live heartbeat task is the one `healthQuit`
 names, so that Close can always stop it.

 The heartbeat step as written breaks this invariant (a failed heartbeat
 drops `paths` but keeps `healthQuit` and its task); a later Open then starts
 a second task, so one more task runs than Close stops. `FixedHeartbeatStep`
 is the corrected step, and the system built on it keeps the invariant.

 Tasks are told apart here by the channel each one started on; in Go all of
 them read the wallet's current `healthQuit` field, so which of two live
 tasks takes a quit request is not determined. Only the number of tasks
 matters to the lemmas below, and every task's heartbeat step acts alike.
 */
module Lifecycle {
  import opened Types
  import opened Wallets

  /** The lifecycle invariant. */
  predicate Valid(w: Wallet)
  {
    && (w.paths.Some? <==> w.healthQuit.Some?)
    && w.heartbeats == (if w.healthQuit.Some? then {w.healthQuit.value} else {})
    && (w.healthQuit.Some? ==> w.healthQuit.value < w.nextChannel)
  }

  /** A heartbeat task is orphaned when it is live but is not the one task a
      Close accounts for. */
  predicate Orphaned(w: Wallet, task: Channel)
  {
    task in w.heartbeats && w.healthQuit != Some(task)
  }

  /** The corrected heartbeat step: a failed heartbeat tears the wallet down,
      forgets the quit channel it listens on, and ends the task. */
  function FixedHeartbeatStep(w: Wallet, task: Channel, beat: Option<Error>): (r: Transition<bool>)
    requires task in w.heartbeats
    ensures beat.None? ==> r == Transition(w, true, [])
    ensures beat.Some? ==>
      && !IsOpen(r.next) && r.next.accounts == [] && !r.out
      && task !in r.next.heartbeats
      && r.next.healthQuit == (if w.healthQuit == Some(task) then None else w.healthQuit)
      && r.next.heartbeats == w.heartbeats - {task}
    ensures r.next.url == w.url && r.next.nextChannel == w.nextChannel
    ensures r.events == []
  {
    if beat.None? then Transition(w, true, [])
    else
      var quit := if w.healthQuit == Some(task) then None else w.healthQuit;
      Transition(Teardown(w.(healthQuit := quit, heartbeats := w.heartbeats - {task})), false, [])
  }

  /** The operations that change a wallet's state. Close takes the heartbeat
      task's acknowledgement to be empty, which is what the task sends. */
  datatype Op =
    | OpenOp(driverErr: Option<Error>)
    | CloseOp
    | AccountsOp(read: seq<Account>, readErr: Option<Error>)
    | BeatOp(task: Channel, beat: Option<Error>)

  /** One operation, with the heartbeat step as written or the corrected one.
      A heartbeat of a task that is not running changes nothing. */
  function Apply(w: Wallet, op: Op, asWritten: bool): Wallet
  {
    match op
    case OpenOp(e) => Open(w, e).next
    case CloseOp => Close(w, None).next
    case AccountsOp(read, e) => Accounts(w, read, e).next
    case BeatOp(task, beat) =>
      if task !in w.heartbeats then w
      else if asWritten then HeartbeatStep(w, task, beat).next
      else FixedHeartbeatStep(w, task, beat).next
  }

  function Run(w: Wallet, ops: seq<Op>, asWritten: bool): Wallet
    decreases |ops|
  {
    if |ops| == 0 then w else Run(Apply(w, ops[0], asWritten), ops[1..], asWritten)
  }

  /** Every operation of the corrected system keeps the invariant. */
  lemma ApplyKeepsValid(w: Wallet, op: Op)
    requires Valid(w)
    ensures Valid(Apply(w, op, false))
  {
    match op
    case OpenOp(e) =>
    case CloseOp =>
    case AccountsOp(read, e) =>
    case BeatOp(task, beat) =>
  }

  /** The invariant holds after any sequence of operations of the corrected
      system. */
  lemma {:induction false} RunKeepsValid(w: Wallet, ops: seq<Op>)
    requires Valid(w)
    ensures Valid(Run(w, ops, false))
    decreases |ops|
  {
    if |ops| > 0 {
      ApplyKeepsValid(w, ops[0]);
      RunKeepsValid(Apply(w, ops[0], false), ops[1..]);
    }
  }

  /** Under the invariant no heartbeat task is orphaned, and Close stops every
      running task. */
  lemma ValidMeansNoOrphans(w: Wallet, task: Channel)
    requires Valid(w)
    ensures !Orphaned(w, task)
    ensures Close(w, None).next.heartbeats == {}
  {
  }

  /** A wallet fresh from the registry is valid, so the corrected system never
      leaves a heartbeat task running after Close, whatever happened before. */
  lemma {:induction false} NoOrphansEver(url: Url, ops: seq<Op>, task: Channel)
    ensures Valid(Run(New(url), ops, false))
    ensures !Orphaned(Run(New(url), ops, false), task)
    ensures Close(Run(New(url), ops, false), None).next.heartbeats == {}
  {
    RunKeepsValid(New(url), ops);
    ValidMeansNoOrphans(Run(New(url), ops, false), task);
  }

  /** Running two operations is applying them in turn. */
  lemma TwoSteps(w: Wallet, a: Op, b: Op, asWritten: bool)
    ensures Run(w, [a, b], asWritten) == Apply(Apply(w, a, asWritten), b, asWritten)
  {
    var w1 := Apply(w, a, asWritten);
    assert [a, b][1..] == [b] && [b][1..] == [];
    assert Run(w, [a, b], asWritten) == Run(w1, [b], asWritten);
    assert Run(w1, [b], asWritten) == Run(Apply(w1, b, asWritten), [], asWritten);
  }

  /** Running three operations is applying them in turn. */
  lemma ThreeSteps(w: Wallet, a: Op, b: Op, c: Op, asWritten: bool)
    ensures Run(w, [a, b, c], asWritten)
         == Apply(Apply(Apply(w, a, asWritten), b, asWritten), c, asWritten)
  {
    assert [a, b, c][1..] == [b, c];
    assert Run(w, [a, b, c], asWritten) == Run(Apply(w, a, asWritten), [b, c], asWritten);
    TwoSteps(Apply(w, a, asWritten), b, c, asWritten);
  }

  /** As written: after a failed heartbeat the wallet is closed but still
      names a quit channel, and the task keeps running. */
  lemma AsWrittenFailedHeartbeatBreaksInvariant(url: Url, e: Error)
    ensures
      var w := Run(New(url), [OpenOp(None), BeatOp(0, Some(e))], true);
      !IsOpen(w) && w.healthQuit == Some(0) && w.heartbeats == {0} && !Valid(w)
  {
    TwoSteps(New(url), OpenOp(None), BeatOp(0, Some(e)), true);
  }

  /** As written: re-opening after a failed heartbeat starts a second task,
      so two tasks run; Close stops one of them, and the survivor can later
      tear down a session it does not belong to. */
  lemma AsWrittenReopenOrphansHeartbeat(url: Url, e: Error)
    ensures
      var w := Run(New(url), [OpenOp(None), BeatOp(0, Some(e)), OpenOp(None)], true);
      && IsOpen(w) && w.heartbeats == {0, 1} && Orphaned(w, 0)
      && Close(w, None).next.heartbeats == {0}
      && !IsOpen(Apply(w, BeatOp(0, Some(e)), true))
  {
    var w0 := New(url);
    var w1 := Apply(w0, OpenOp(None), true);
    var w2 := Apply(w1, BeatOp(0, Some(e)), true);
    var w3 := Apply(w2, OpenOp(None), true);
    ThreeSteps(w0, OpenOp(None), BeatOp(0, Some(e)), OpenOp(None), true);
  }

  /** The same schedule under the corrected step leaves exactly one task. */
  lemma FixedReopenKeepsOneHeartbeat(url: Url, e: Error)
    ensures
      var w := Run(New(url), [OpenOp(None), BeatOp(0, Some(e)), OpenOp(None)], false);
      && IsOpen(w) && w.heartbeats == {1} && !Orphaned(w, 0)
      && Close(w, None).next.heartbeats == {}
  {
    var w0 := New(url);
    var w1 := Apply(w0, OpenOp(None), false);
    var w2 := Apply(w1, BeatOp(0, Some(e)), false);
    var w3 := Apply(w2, OpenOp(None), false);
    ThreeSteps(w0, OpenOp(None), BeatOp(0, Some(e)), OpenOp(None), false);
  }
}

=== FILE: registry.dfy ===
/**
 The registry of remote wallets. It tracks at most one wallet, bound to the
 signing server, creating it on the first refresh that is not throttled and
 announcing its arrival. Subscribers keep a background updater alive; the
 updater refreshes periodically and stops itself once no subscriber is left.

 Time is an integer count of milliseconds supplied by the caller. Live
 subscriptions are tracked by identity and live updater tasks by count;
 each operation is one atomic transition.
 */
module Registry {
  import opened Types
  import Driver
  import Device

  /** Address of the signing server, also used as the wallet's URL path. */
  const VeriteemSigningServer: string := "http://13.59.10.65:80"

  /** Scheme prefixing wallet and account URLs. */
  const RemoteWalletScheme: string := "remotewallet"

  /** Minimum time between two wallet scans, in milliseconds. */
  const RefreshThrottling: int := 500

  datatype Registry = Registry(
    scheme: string,
    server: Driver.SigningServer,
    refreshed: Option<int>,
    wallets: seq<Device.Device>,
    updating: bool,
    updaters: nat,
    subscriptions: set<nat>,
    nextSubscription: nat)

  /** The URL of the single wallet a registry creates. Its path is always the
      fixed signing-server address, whatever server the registry was given. */
  function WalletUrl(scheme: string): (u: Url)
    ensures u.scheme == scheme && u.path == "http://13.59.10.65:80"
  {
    Url(scheme, VeriteemSigningServer)
  }

  /** A refresh at `now` is throttled when the last refresh happened less than
      the throttling window before it. A registry that never refreshed has
      the zero time, which is never within the window. */
  function Throttled(r: Registry, now: int): (b: bool)
    ensures r.refreshed.None? ==> !b
    ensures r.refreshed.Some? ==> (b <==> now < r.refreshed.value + 500)
  {
    r.refreshed.Some? && now - r.refreshed.value < RefreshThrottling
  }

  /** Refresh: does nothing when throttled. Otherwise creates the wallet if
      none is tracked yet and announces it, and records `now` as the time of
      the last refresh in either case. Returns the events published. */
  function Refresh(r: Registry, now: int): (t: (Registry, seq<WalletEvent>))
    ensures Throttled(r, now) ==> t == (r, [])
    ensures !Throttled(r, now) && |r.wallets| == 0 ==>
      && t.0 == r.(refreshed := Some(now), wallets := [Device.New(WalletUrl(r.scheme), r.server)])
      && t.1 == [WalletEvent(WalletUrl(r.scheme), WalletArrived)]
    ensures !Throttled(r, now) && |r.wallets| > 0 ==> t == (r.(refreshed := Some(now)), [])
  {
    if Throttled(r, now) then (r, [])
    else if |r.wallets| == 0 then
      var url := WalletUrl(r.scheme);
      (r.(refreshed := Some(now), wallets := [Device.New(url, r.server)]),
       [WalletEvent(url, WalletArrived)])
    else (r.(refreshed := Some(now)), [])
  }

  /** The registry invariant: one wallet once any refresh ran and none
      before, with the registry's URL; exactly one updater task while `updating`
      holds and none otherwise; subscription identities below the allocator. */
  predicate Valid(r: Registry)
  {
    && |r.wallets| == (if r.refreshed.Some? then 1 else 0)
    && (|r.wallets| == 1 ==> r.wallets[0].wallet.url == WalletUrl(r.scheme))
    && r.updaters == (if r.updating then 1 else 0)
    && (forall s :: s in r.subscriptions ==> s < r.nextSubscription)
  }

  /** Construction runs a first refresh, which is never throttled, so the new
      registry already tracks its one wallet and has announced it. */
  function New(scheme: string, server: Driver.SigningServer, now: int): (t: (Registry, seq<WalletEvent>))
    ensures Valid(t.0)
    ensures |t.0.wallets| == 1 && t.0.wallets[0] == Device.New(WalletUrl(scheme), server)
    ensures t.1 == [WalletEvent(WalletUrl(scheme), WalletArrived)]
    ensures !t.0.updating && t.0.subscriptions == {} && t.0.refreshed == Some(now)
    ensures t.0.scheme == scheme && t.0.server == server
    ensures t.0.updaters == 0 && t.0.nextSubscription == 0
  {
    Refresh(Registry(scheme, server, None, [], false, 0, {}, 0), now)
  }

  /** The registry for the Veriteem signing server. */
  function NewVeriteemWallet(now: int): (t: (Registry, seq<WalletEvent>))
    ensures |t.0.wallets| == 1
    ensures t.0.wallets[0].wallet.url == Url("remotewallet", "http://13.59.10.65:80")
    ensures t.0.server == Driver.SigningServer("http://13.59.10.65:80", "remotewallet")
    ensures t.0.wallets[0].driver.server == t.0.server
  {
    New(RemoteWalletScheme, Driver.SigningServer(VeriteemSigningServer, RemoteWalletScheme), now)
  }

  /** Wallets: refreshes, then returns a copy of the tracked list as it is
      after that refresh. */
  function Wallets(r: Registry, now: int): (t: (Registry, seq<WalletEvent>, seq<Device.Device>))
    ensures (t.0, t.1) == Refresh(r, now)
    ensures t.2 == t.0.wallets
    ensures |r.wallets| > 0 ==> t.2 == r.wallets && t.1 == []
  {
    var (r', events) := Refresh(r, now);
    (r', events, r'.wallets)
  }

  /** Subscribe: registers a new subscription and starts the updater unless
      one is already running. Returns the subscription and whether an updater
      was started. */
  function Subscribe(r: Registry): (t: (Registry, nat, bool))
    ensures t.0.updating
    ensures t.2 <==> !r.updating
    ensures t.0.updaters == if r.updating then r.updaters else r.updaters + 1
    ensures t.0.subscriptions == r.subscriptions + {t.1}
    ensures (forall s :: s in r.subscriptions ==> s < r.nextSubscription) ==>
      t.1 !in r.subscriptions && |t.0.subscriptions| == |r.subscriptions| + 1
    ensures t.0.wallets == r.wallets && t.0.refreshed == r.refreshed
    ensures t.0.scheme == r.scheme && t.0.server == r.server
    ensures t.0.nextSubscription == r.nextSubscription + 1
  {
    var id := r.nextSubscription;
    var r' := r.(subscriptions := r.subscriptions + {id}, nextSubscription := id + 1);
    if r.updating then (r', id, false)
    else (r'.(updating := true, updaters := r.updaters + 1), id, true)
  }

  /** Cancelling a subscription; cancelling twice is harmless. */
  function Unsubscribe(r: Registry, id: nat): (r': Registry)
    ensures r'.subscriptions == r.subscriptions - {id}
    ensures r'.updating == r.updating && r'.updaters == r.updaters && r'.wallets == r.wallets
    ensures r'.scheme == r.scheme && r'.server == r.server && r'.refreshed == r.refreshed
    ensures r'.nextSubscription == r.nextSubscription
  {
    r.(subscriptions := r.subscriptions - {id})
  }

  /** One round of a running updater, after its sleep: a refresh, then a
      check of the subscriber count. With no subscriber left it clears
      `updating` and ends; otherwise it carries on. Returns the events
      published and whether the updater carries on. */
  function UpdaterStep(r: Registry, now: int): (t: (Registry, seq<WalletEvent>, bool))
    requires r.updaters > 0
    ensures t.1 == Refresh(r, now).1 && t.0.wallets == Refresh(r, now).0.wallets
    ensures t.0.refreshed == Refresh(r, now).0.refreshed
    ensures t.2 <==> |r.subscriptions| > 0
    ensures t.0.subscriptions == r.subscriptions && t.0.nextSubscription == r.nextSubscription
    ensures t.0.scheme == r.scheme && t.0.server == r.server
    ensures !t.2 ==> !t.0.updating && t.0.updaters == r.updaters - 1
    ensures t.2 ==> t.0.updating == r.updating && t.0.updaters == r.updaters
  {
    var (r', events) := Refresh(r, now);
    if |r'.subscriptions| == 0 then
      (r'.(updating := false, updaters := r'.updaters - 1), events, false)
    else (r', events, true)
  }

  /** Two wallet listings within the throttling window of an unthrottled
      refresh scan only once: the second changes nothing and announces
      nothing. */
  lemma ThrottleWindow(r: Registry, t1: int, t2: int)
    requires !Throttled(r, t1)
    requires t1 <= t2 < t1 + RefreshThrottling
    ensures Wallets(Wallets(r, t1).0, t2).0 == Wallets(r, t1).0
    ensures Wallets(Wallets(r, t1).0, t2).1 == []
    ensures Wallets(Wallets(r, t1).0, t2).2 == Wallets(r, t1).2
  {
  }

  /** A registry that has never refreshed, listed for the first time, yields
      exactly one wallet with the registry's scheme and the signing-server
      address, and announces it once. */
  lemma FirstListing(r: Registry, now: int)
    requires Valid(r) && r.refreshed.None?
    ensures
      var (_, events, list) := Wallets(r, now);
      && |list| == 1 && list[0].wallet.url == Url(r.scheme, VeriteemSigningServer)
      && events == [WalletEvent(list[0].wallet.url, WalletArrived)]
  {
  }

  /** Subscribing to an idle registry and cancelling that only subscription
      stops the updater on its next round. */
  lemma SubscribeThenCancelStopsUpdater(r: Registry, now: int)
    requires Valid(r) && !r.updating && r.subscriptions == {}
    ensures
      var (r1, id, started) := Subscribe(r);
      var (r3, _, carriesOn) := UpdaterStep(Unsubscribe(r1, id), now);
      started && !carriesOn && !r3.updating && r3.updaters == 0
  {
  }

  /** The registry's operations, as a caller or the updater issues them. */
  datatype Op =
    | RefreshOp(now: int)
    | WalletsOp(now: int)
    | SubscribeOp
    | UnsubscribeOp(id: nat)
    | UpdaterOp(now: int)

  /** One operation and the events it publishes. An updater round when no
      updater is running changes nothing. */
  function Apply(r: Registry, op: Op): (Registry, seq<WalletEvent>)
  {
    match op
    case RefreshOp(now) => Refresh(r, now)
    case WalletsOp(now) => var t := Wallets(r, now); (t.0, t.1)
    case SubscribeOp => (Subscribe(r).0, [])
    case UnsubscribeOp(id) => (Unsubscribe(r, id), [])
    case UpdaterOp(now) => if r.updaters == 0 then (r, []) else var t := UpdaterStep(r, now); (t.0, t.1)
  }

  /** A sequence of operations and all the events they publish, in order. */
  function Run(r: Registry, ops: seq<Op>): (Registry, seq<WalletEvent>)
    decreases |ops|
  {
    if |ops| == 0 then (r, [])
    else
      var (r1, e1) := Apply(r, ops[0]);
      var (r2, e2) := Run(r1, ops[1..]);
      (r2, e1 + e2)
  }

  /** Every operation keeps the invariant; once a wallet is tracked, none
      changes the list or publishes anything. */
  lemma ApplyKeepsValid(r: Registry, op: Op)
    requires Valid(r)
    ensures Valid(Apply(r, op).0)
    ensures |r.wallets| == 1 ==> Apply(r, op).0.wallets == r.wallets && Apply(r, op).1 == []
  {
  }

  /** After any sequence of operations the invariant still holds, and a
      registry that tracks its wallet keeps exactly that wallet and publishes
      no further event. */
  lemma {:induction false} RunKeepsValid(r: Registry, ops: seq<Op>)
    requires Valid(r)
    ensures Valid(Run(r, ops).0)
    ensures |r.wallets| == 1 ==> Run(r, ops).0.wallets == r.wallets && Run(r, ops).1 == []
    decreases |ops|
  {
    if |ops| > 0 {
      ApplyKeepsValid(r, ops[0]);
      RunKeepsValid(Apply(r, ops[0]).0, ops[1..]);
    }
  }

  /** Over its whole life a registry tracks exactly one wallet, the one built
      at construction, runs at most one updater, and announces the wallet's
      arrival exactly once. */
  lemma Lifetime(scheme: string, server: Driver.SigningServer, now: int, ops: seq<Op>)
    ensures
      var (r0, e0) := New(scheme, server, now);
      var (r, e) := Run(r0, ops);
      && r.wallets == r0.wallets && |r.wallets| == 1
      && r.updaters <= 1
      && e0 + e == [WalletEvent(WalletUrl(scheme), WalletArrived)]
  {
    RunKeepsValid(New(scheme, server, now).0, ops);
  }
}

=== FILE: types.dfy ===
/**
 Values shared by the remote-wallet backend: addresses, accounts, URLs,
 transactions, the error kinds the backend reports, and wallet events.
 */
module Types {

  newtype byte = x: int | 0 <= x < 256

  /** An Ethereum address: exactly 20 bytes, compared byte for byte. */
  type Address = a: seq<byte> | |a| == 20 witness ZeroAddress

  const ZeroAddress: seq<byte> := [0, 0, 0, 0, 0, 0, 0, 0, 0, 0, 0, 0, 0, 0, 0, 0, 0, 0, 0, 0]

  /** An account URL or wallet URL: a scheme and a scheme-specific path. */
  datatype Url = Url(scheme: string, path: string)

  /** An account as handed out by the signing server. Only the address takes
      part in membership and signer checks; the URL is carried along. */
  datatype Account = Account(address: Address, url: Url)

  /** A transaction, kept opaque: the backend never inspects its fields. */
  datatype Transaction = Transaction(payload: seq<byte>)

  /** A key derivation path (its components are 32-bit in Go). */
  type DerivationPath = seq<nat>

  datatype Option<+T> = None | Some(value: T)

  datatype Result<+T> = Ok(value: T) | Err(error: Error)

  /** Every error the backend can report. Driver and transport failures are
      opaque and passed through uninterpreted. */
  datatype Error =
    | WalletAlreadyOpen
    | NotSupported
    | UnknownAccount
    | SignerMismatch(expected: Address, got: Address)
    | InvalidVersionReply
    | Transport(message: string)

  /** The text of an error. Addresses inside a signer-mismatch message are
      not rendered (their checksummed hex form is not modelled). */
  function Message(e: Error): string
  {
    match e
    case WalletAlreadyOpen => "wallet already open"
    case NotSupported => "not supported"
    case UnknownAccount => "unknown account"
    case SignerMismatch(_, _) => "signer mismatch"
    case InvalidVersionReply => "ledger: invalid version reply"
    case Transport(m) => m
  }

  datatype EventKind = WalletArrived | WalletOpened

  /** A wallet lifecycle notification; the wallet is identified by its URL. */
  datatype WalletEvent = WalletEvent(wallet: Url, kind: EventKind)
}

=== FILE: wallet.dfy ===
/**
 One remote wallet and its lifecycle. A wallet is closed while `paths` is
 absent and open while it is present; `healthQuit` names the quit channel of
 the heartbeat task the wallet will stop on close. Live heartbeat tasks are
 tracked in `heartbeats`, each by the quit channel it started on.

 The wallet is generic over its driver: each operation takes the outcome of
 the driver call it makes as a parameter. Every operation is one atomic
 transition; the state lock and the communication token are not modelled.
 */
module Wallets {
  import opened Types
  import Driver

  /** Identity of a quit channel, allocated fresh on each successful open. */
  type Channel = nat

  datatype Wallet = Wallet(
    url: Url,
    accounts: seq<Account>,
    paths: Option<map<Address, DerivationPath>>,
    healthQuit: Option<Channel>,
    heartbeats: set<Channel>,
    nextChannel: Channel)

  /** The outcome of a state-changing operation: the wallet afterwards, the
      value returned to the caller, and the events published. */
  datatype Transition<T> = Transition(next: Wallet, out: T, events: seq<WalletEvent>)

  /** A wallet as the registry constructs it: closed, with no cached accounts
      and no heartbeat task. */
  function New(url: Url): (w: Wallet)
    ensures !IsOpen(w) && w.healthQuit.None? && w.heartbeats == {} && w.accounts == []
  {
    Wallet(url, [], None, None, {}, 0)
  }

  predicate IsOpen(w: Wallet)
  {
    w.paths.Some?
  }

  /** Open: refuses an open wallet; otherwise asks the driver, and only on
      success sets up an empty path map, a fresh quit channel, a heartbeat
      task listening on it, and announces the wallet as opened. */
  function Open(w: Wallet, driverErr: Option<Error>): (r: Transition<Option<Error>>)
    ensures IsOpen(w) ==> r == Transition(w, Some(WalletAlreadyOpen), [])
    ensures !IsOpen(w) && driverErr.Some? ==> r == Transition(w, driverErr, [])
    ensures !IsOpen(w) && driverErr.None? ==>
      && r.out.None?
      && r.next.paths == Some(map[])
      && r.next.healthQuit == Some(w.nextChannel)
      && r.next.nextChannel == w.nextChannel + 1
      && r.next.heartbeats == w.heartbeats + {w.nextChannel}
      && r.next.accounts == w.accounts && r.next.url == w.url
      && r.events == [WalletEvent(w.url, WalletOpened)]
  {
    if w.paths.Some? then
      Transition(w, Some(WalletAlreadyOpen), [])
    else if driverErr.Some? then
      Transition(w, driverErr, [])
    else
      var c := w.nextChannel;
      var w' := w.(paths := Some(map[]), healthQuit := Some(c),
                   heartbeats := w.heartbeats + {c}, nextChannel := c + 1);
      Transition(w', None, [WalletEvent(w.url, WalletOpened)])
  }

  /** The internal teardown: drops the cached accounts and the path map. The
      driver's close result is discarded, so teardown never fails. */
  function Teardown(w: Wallet): (w': Wallet)
    ensures !IsOpen(w') && w'.accounts == []
    ensures w'.healthQuit == w.healthQuit && w'.heartbeats == w.heartbeats
    ensures w'.url == w.url && w'.nextChannel == w.nextChannel
  {
    w.(accounts := [], paths := None)
  }

  /** Close: stops the heartbeat task named by `healthQuit`, if any, which
      acknowledges with `ack`; then forgets the channel and tears down. The
      teardown cannot fail, so the result is the heartbeat's acknowledgement,
      or nothing when no heartbeat task was running. */
  function Close(w: Wallet, ack: Option<Error>): (r: Transition<Option<Error>>)
    ensures !IsOpen(r.next) && r.next.accounts == [] && r.next.healthQuit.None?
    ensures r.out == (if w.healthQuit.Some? then ack else None)
    ensures r.next.heartbeats ==
      (if w.healthQuit.Some? then w.heartbeats - {w.healthQuit.value} else w.heartbeats)
    ensures r.next.url == w.url && r.next.nextChannel == w.nextChannel
    ensures r.events == []
  {
    var herr := if w.healthQuit.Some? then ack else None;
    var stopped := if w.healthQuit.Some? then w.heartbeats - {w.healthQuit.value} else w.heartbeats;
    Transition(Teardown(w.(healthQuit := None, heartbeats := stopped)), herr, [])
  }

  /** Accounts: stores whatever list the driver returned as the new cache,
      even on failure, and hands the caller a copy of it, or an empty list
      when the driver failed. The wallet need not be open. */
  function Accounts(w: Wallet, read: seq<Account>, readErr: Option<Error>): (r: Transition<seq<Account>>)
    ensures r.next == w.(accounts := read)
    ensures r.out == (if readErr.Some? then [] else r.next.accounts)
    ensures r.events == []
  {
    Transition(w.(accounts := read), if readErr.Some? then [] else read, [])
  }

  /** True when some account in the list has exactly this address, checked
      front to back as in wallet.go. */
  function Scan(accounts: seq<Account>, address: Address): (found: bool)
    ensures found <==> exists i :: 0 <= i < |accounts| && accounts[i].address == address
  {
    if |accounts| == 0 then false
    else if accounts[0].address == address then true
    else
      var rest := Scan(accounts[1..], address);
      assert rest ==> exists i :: 0 <= i < |accounts| && accounts[i].address == address by {
        if rest {
          var j :| 0 <= j < |accounts[1..]| && accounts[1..][j].address == address;
          assert accounts[j + 1].address == address;
        }
      }
      rest
  }

  /** Contains: whether the cached list holds an account with the same
      address; the account's URL plays no part. */
  function Contains(w: Wallet, account: Account): (found: bool)
    ensures found <==> exists i :: 0 <= i < |w.accounts| && w.accounts[i].address == account.address
  {
    Scan(w.accounts, account.address)
  }

  /** The driver's sign call, as seen by the wallet. */
  type Signer = (Account, Transaction, int) -> Driver.SignReply

  /** SignTx: refuses an account outside the cached list before the driver
      is asked; passes a driver failure through; refuses a reply whose signer
      is not the requested account; otherwise returns the driver's
      transaction. */
  function SignTx(w: Wallet, account: Account, tx: Transaction, chainId: int, sign: Signer): (r: Result<Option<Transaction>>)
    ensures !Contains(w, account) ==> r == Err(UnknownAccount)
    ensures Contains(w, account) ==>
      var reply := sign(account, tx, chainId);
      && (reply.err.Some? ==> r == Err(reply.err.value))
      && (reply.err.None? && reply.signer != account.address ==>
            r == Err(SignerMismatch(account.address, reply.signer)))
      && (reply.err.None? && reply.signer == account.address ==> r == Ok(reply.tx))
  {
    if !Contains(w, account) then Err(UnknownAccount)
    else
      var reply := sign(account, tx, chainId);
      if reply.err.Some? then Err(reply.err.value)
      else if reply.signer != account.address then Err(SignerMismatch(account.address, reply.signer))
      else Ok(reply.tx)
  }

  /** SignTxWithPassphrase ignores the passphrase. */
  function SignTxWithPassphrase(w: Wallet, account: Account, passphrase: string, tx: Transaction,
                                chainId: int, sign: Signer): (r: Result<Option<Transaction>>)
    ensures r == SignTx(w, account, tx, chainId, sign)
  {
    SignTx(w, account, tx, chainId, sign)
  }

  /** Derive is not supported, whatever the wallet's state. */
  function Derive(w: Wallet, path: DerivationPath, pin: bool): (r: Result<Account>)
    ensures r == Err(NotSupported)
  {
    Err(NotSupported)
  }

  /** SignHash is not supported, whatever the wallet's state. */
  function SignHash(w: Wallet, account: Account, hash: seq<byte>): (r: Result<seq<byte>>)
    ensures r == Err(NotSupported)
  {
    Err(NotSupported)
  }

  /** SignHashWithPassphrase defers to SignHash, so it is not supported either. */
  function SignHashWithPassphrase(w: Wallet, account: Account, passphrase: string,
                                  hash: seq<byte>): (r: Result<seq<byte>>)
    ensures r == Err(NotSupported)
  {
    SignHash(w, account, hash)
  }

  /** One heartbeat of the task listening on `task`, given the driver's
      heartbeat outcome. A failure tears the wallet down, but the error is
      then dropped: the task stays alive and `healthQuit` is left as it was.
      The result says whether the task keeps looping. */
  function HeartbeatStep(w: Wallet, task: Channel, beat: Option<Error>): (r: Transition<bool>)
    requires task in w.heartbeats
    ensures r.out
    ensures beat.Some? ==> !IsOpen(r.next) && r.next.accounts == []
    ensures beat.None? ==> r.next == w
    ensures r.next.healthQuit == w.healthQuit && r.next.heartbeats == w.heartbeats
    ensures r.next.url == w.url && r.next.nextChannel == w.nextChannel
    ensures r.events == []
  {
    if beat.Some? then Transition(Teardown(w), true, []) else Transition(w, true, [])
  }

  /** What wakes the heartbeat task: a quit request, or the heartbeat timer
      together with the outcome of the driver's heartbeat. */
  datatype Wake = Quit | Beat(outcome: Option<Error>)

  /** The wallet after the task listening on `task` has performed every
      heartbeat of `wakes` that precedes the first quit request. */
  function Beats(w: Wallet, task: Channel, wakes: seq<Wake>): Wallet
    requires task in w.heartbeats
    decreases |wakes|
  {
    if |wakes| == 0 || wakes[0].Quit? then w
    else Beats(HeartbeatStep(w, task, wakes[0].outcome).next, task, wakes[1..])
  }

  /** Some heartbeat of the schedule fails before the first quit request. */
  predicate FailsBeforeQuit(wakes: seq<Wake>)
  {
    exists j :: 0 <= j < |wakes| && wakes[j].Beat? && wakes[j].outcome.Some?
      && forall k :: 0 <= k < j ==> !wakes[k].Quit?
  }

  /** A schedule of heartbeats leaves the wallet torn down exactly when one
      of them fails before the task is told to quit, and untouched otherwise:
      a teardown is idempotent, and a successful heartbeat changes nothing. */
  lemma {:induction false} BeatsTearDownOnFailure(w: Wallet, task: Channel, wakes: seq<Wake>)
    requires task in w.heartbeats
    ensures Beats(w, task, wakes) == if FailsBeforeQuit(wakes) then Teardown(w) else w
    decreases |wakes|
  {
    if |wakes| == 0 {
    } else if wakes[0].Quit? {
    } else {
      var rest := wakes[1..];
      var w1 := HeartbeatStep(w, task, wakes[0].outcome).next;
      BeatsTearDownOnFailure(w1, task, rest);
      if wakes[0].outcome.Some? {
        assert FailsBeforeQuit(wakes) by {
          assert wakes[0].Beat? && wakes[0].outcome.Some?;
        }
        assert Teardown(Teardown(w)) == Teardown(w);
      } else {
        assert w1 == w;
        if FailsBeforeQuit(rest) {
          var j :| 0 <= j < |rest| && rest[j].Beat? && rest[j].outcome.Some?
            && forall k :: 0 <= k < j ==> !rest[k].Quit?;
          assert wakes[j + 1] == rest[j];
          assert forall k :: 0 <= k < j + 1 ==> !wakes[k].Quit? by {
            forall k | 0 <= k < j + 1
              ensures !wakes[k].Quit?
            {
              if k > 0 { assert wakes[k] == rest[k - 1]; }
            }
          }
        }
        if FailsBeforeQuit(wakes) {
          var j :| 0 <= j < |wakes| && wakes[j].Beat? && wakes[j].outcome.Some?
            && forall k :: 0 <= k < j ==> !wakes[k].Quit?;
          assert j > 0;
          assert rest[j - 1] == wakes[j];
          assert forall k :: 0 <= k < j - 1 ==> !rest[k].Quit? by {
            forall k | 0 <= k < j - 1
              ensures !rest[k].Quit?
            {
              assert rest[k] == wakes[k + 1];
            }
          }
        }
      }
    }
  }

  /** The heartbeat task run against a schedule of wake-ups. It performs the
      heartbeats up to the first quit request and then acknowledges it. The
      error it tracks is reset after every heartbeat, so the acknowledgement
      always carries no error; `reply` is absent when the schedule holds no
      quit request and the task is still running at its end. */
  method Heartbeat(w: Wallet, task: Channel, wakes: seq<Wake>) returns (w': Wallet, reply: Option<Option<Error>>)
    requires task in w.heartbeats
    ensures w' == Beats(w, task, wakes)
    ensures w' == if FailsBeforeQuit(wakes) then Teardown(w) else w
    ensures reply.Some? <==> exists i :: 0 <= i < |wakes| && wakes[i].Quit?
    ensures reply.Some? ==> reply.value.None?
    ensures w'.healthQuit == w.healthQuit && w'.heartbeats == w.heartbeats
  {
    var quit := false;
    var err: Option<Error> := None;
    var i := 0;
    w' := w;
    while !quit && err.None? && i < |wakes|
      invariant 0 <= i <= |wakes|
      invariant task in w'.heartbeats
      invariant w'.healthQuit == w.healthQuit && w'.heartbeats == w.heartbeats
      invariant err.None?
      invariant Beats(w, task, wakes) == if quit then w' else Beats(w', task, wakes[i..])
      invariant quit ==> 0 < i && wakes[i - 1].Quit?
      invariant !quit ==> forall j :: 0 <= j < i ==> !wakes[j].Quit?
    {
      match wakes[i] {
        case Quit =>
          quit := true;
        case Beat(outcome) =>
          err := outcome;
          w' := HeartbeatStep(w', task, err).next;
          // the loop drops the error once the wallet has been torn down
          err := None;
      }
      i := i + 1;
    }
    // With `err` always reset, the loop only ends on a quit request or at the
    // end of the schedule; the wait-for-quit branch after the loop is dead.
    reply := if quit then Some(err) else None;
    BeatsTearDownOnFailure(w, task, wakes);
  }

  /** A failed open leaves the wallet closed, so it can be retried; the retry
      succeeds as soon as the driver does. */
  lemma FailedOpenIsRetryable(w: Wallet, e: Error)
    requires !IsOpen(w)
    ensures !IsOpen(Open(w, Some(e)).next)
    ensures Open(Open(w, Some(e)).next, None).out.None?
    ensures IsOpen(Open(Open(w, Some(e)).next, None).next)
  {
  }

  /** For an account outside the cached list, SignTx gives the same answer
      whatever the driver would have replied: the driver is never asked. */
  lemma UnknownAccountNeverReachesDriver(w: Wallet, account: Account, tx: Transaction, chainId: int,
                                         sign1: Signer, sign2: Signer)
    requires forall i :: 0 <= i < |w.accounts| ==> w.accounts[i].address != account.address
    ensures SignTx(w, account, tx, chainId, sign1) == SignTx(w, account, tx, chainId, sign2)
    ensures SignTx(w, account, tx, chainId, sign1) == Err(UnknownAccount)
  {
  }

  /** Membership depends on the address alone: an account found in the cache
      is found under any other URL, and an account just read from the driver
      is contained afterwards. */
  lemma ContainsByAddress(w: Wallet, account: Account, url: Url, read: seq<Account>, readErr: Option<Error>)
    ensures Contains(w, account) == Contains(w, account.(url := url))
    ensures account in read ==> Contains(Accounts(w, read, readErr).next, account)
  {
    if account in read {
      var i :| 0 <= i < |read| && read[i] == account;
      assert Accounts(w, read, readErr).next.accounts[i].address == account.address;
    }
  }

  /** Opening a closed wallet and closing it again returns it to a closed
      state with no heartbeat task beyond those running before, reports no
      error, and only the channel allocator has moved on. */
  lemma OpenThenClose(w: Wallet)
    requires !IsOpen(w) && w.nextChannel !in w.heartbeats
    ensures Close(Open(w, None).next, None) ==
      Transition(w.(accounts := [], healthQuit := None, nextChannel := w.nextChannel + 1), None, [])
  {
    var w1 := Open(w, None).next;
    assert w1.heartbeats - {w.nextChannel} == w.heartbeats;
  }
}
